=== FILE: README.md ===
# Symbol interpreter core, modelled in Dafny

Symbol is an esoteric language whose programs are flat strings of the
twenty symbols `+-*/&|~^<>(){}[]_!@.`, with no control flow.  Its
interpreter (`symbol.py`) keeps a **Memory**: an append-only list of
**Stacks** (at most 15) with a cursor.  Each Stack is a row of eight
**Cells** with its own cursor.  A **Program** holds the source text.
`load` turns the text into **Tokens**: it keeps the legal symbols in order
and stops after the first `.`.  `execute` then makes one left-to-right pass,
applying each symbol to the cell, stack or memory it names.  The only
observable effect is the characters printed by `@`.

The project models that core:

- `wrappers.dfy`: `Option` and `Result`.
- `bits.dfy`: Python's `&`, `|`, `^` and `~` on unbounded integers (infinite
  two's complement), defined bit by bit with `/ 2` and `% 2`.
- `cells.dfy`: the value after each cell operation as a function, and the
  class `Cell`, whose methods update `value` in place.
- `stacks.dfy`: the stack state as a value, the cursor moves and `reset` as
  functions, and the class `Stack`.  Its eight `Cell` objects are distinct,
  and `reset` loops over them.
- `memories.dfy`: the memory state as a value, `add` and the cursor moves,
  and the class `Memory`, which owns its stacks through a `Repr` footprint.
- `tokens.dfy`: `Token`, `LEGALS`, and the tokenizer's specification
  (filter, then cut after the first `.`).
- `programs.dfy`: the meaning of one symbol (`Step`) and of a pass (`Run`)
  on memory values.  Also the class `Program`: `Load` is the tokenizer loop
  with its early exit, and `Execute` is the dispatch loop.  Each method is
  proved against those functions.
- `scenarios.dfy`: concrete programs and what they print, plus client
  methods that drive a `Program`.

Output is a sequence of code points.  Dialogs become `Error` values
(`EmptySource`, `NotCompiled`, `OutOfRangeCharacter`).  The `ValueError` that
`chr` raises inside `execute` ends the pass early: the memory keeps what the
earlier symbols did, and the output keeps what they printed.

Behaviour the model keeps exactly as `symbol.py` has it:

- `~` does not mask its result, so a cell can go negative.  A negative value
  always doubles under `*`, because `2v <= 127`.  `half` of a negative value
  is 1.  `decrement` leaves a negative value alone.
- `~` applied after doublings of a negative value gives a large positive
  value.  So `@` fails for values above `0x10FFFF` as well as for negative
  ones, and it prints code points above 127 (`Scenarios.NotDoubleNot`).
- `add` compares the count with `16 - 1`, so the memory never holds more
  than 15 stacks.
- `execute` neither discards the tokens nor rebuilds the memory.  A second
  `execute` continues on the memory the first one left
  (`Scenarios.SecondPassSeesFirst`).  The editor's run command calls
  `clear` after `execute` (symbol.py:390-394), with no `try` around them.
  When a pass ends normally, `clear` resets the program, so the next run
  starts from a new memory (`Scenarios.RunTwiceWithClear`).  When `chr`
  raises inside `execute`, the exception skips `clear`.  The program keeps
  its tokens and the memory the failed pass left, and the next run command
  executes the same tokens on that memory (`Scenarios.RunCommand`,
  `Scenarios.RunAfterFailure`: `~@` fails on -1, then prints code point 0).
- `load` on a non-empty text with no legal character leaves an empty token
  list and reports nothing; only `execute` then reports `NotCompiled`.

## Model

| member | source | states |
|---|---|---|
| Bits.Not | symbol.py:56-58 | `~x` is negative exactly when x is non-negative and keeps x's magnitude (`-x - 1`) |
| Bits.And | symbol.py:48-50 | Python's bitwise AND on unbounded integers: negative exactly when both operands are negative |
| Bits.Or | symbol.py:52-54 | Python's bitwise OR on unbounded integers: negative exactly when either operand is negative |
| Bits.Xor | symbol.py:60-62 | Python's bitwise XOR on unbounded integers: negative exactly when exactly one operand is negative |
| Bits.BoundedOps | symbol.py:48-62 | AND, OR and XOR of two values in [0, 2^n) stay in [0, 2^n), for every n |
| Bits.SevenBitOps | symbol.py:48-62 | AND, OR and XOR of two cell values in [0, 127] stay in [0, 127] |
| Bits.XorTwice | symbol.py:60-62 | applying XOR twice with the same operand gives back the original value, for all integers |
| Cells.Incremented | symbol.py:32-34 | `increment` adds exactly one step, and only below 127, so it never takes a value above 127 |
| Cells.Decremented | symbol.py:36-38 | `decrement` subtracts exactly one step, only above 0; values at or below 0 (including negatives) are unchanged |
| Cells.Doubled | symbol.py:40-42 | `double` doubles exactly when the double is at most 127, otherwise it changes nothing; a value at most 127 stays at most 127 |
| Cells.Halved | symbol.py:44-46 | `half` is floor division by 2 on non-negative values and gives exactly 1 on negative ones |
| Cells.DomainClosed | symbol.py:32-62 | every cell operation except `~` maps [0, 127] into itself (binary ones with an in-range neighbour) |
| Cells.NotLeavesDomain | symbol.py:56-58 | `~` maps [0, 127] into [-128, -1]: `chr` rejects the result, `half` turns it into 1, `double` keeps doubling it |
| Cells.Cell.constructor | symbol.py:19-20 | a new cell holds 0 |
| Cells.Cell.Increment | symbol.py:32-34 | the value becomes `Incremented` of the old value |
| Cells.Cell.Decrement | symbol.py:36-38 | the value becomes `Decremented` of the old value |
| Cells.Cell.Double | symbol.py:40-42 | the value becomes `Doubled` of the old value |
| Cells.Cell.Half | symbol.py:44-46 | the value becomes `Halved` of the old value |
| Cells.Cell.BitwiseAnd | symbol.py:48-50 | the value becomes the Python AND of the old value and the operand |
| Cells.Cell.BitwiseOr | symbol.py:52-54 | the value becomes the Python OR of the old value and the operand |
| Cells.Cell.BitwiseNot | symbol.py:56-58 | the value becomes `-v - 1`, with no masking |
| Cells.Cell.BitwiseXor | symbol.py:60-62 | the value becomes the Python XOR of the old value and the operand |
| Cells.Cell.Output | symbol.py:64-66 | yields the value as a code point exactly when `chr` accepts it (0 to 0x10FFFF), and nothing otherwise |
| Cells.Cell.Reset | symbol.py:68-70 | the value becomes 0 |
| Stacks.Fresh | symbol.py:77-84 | a new stack has 8 cells, all 0, with the cursor on the first |
| Stacks.MovedNext | symbol.py:96-98 | `to_next` moves the cursor right by one, is a no-op exactly on the last cell, keeps the cursor in [0, 7], and leaves the cells alone |
| Stacks.MovedPrevious | symbol.py:100-102 | `to_previous` moves the cursor left by one, is a no-op exactly on the first cell, keeps it in [0, 7], and leaves the cells alone |
| Stacks.JumpedStart | symbol.py:104-106 | `jump_start` keeps the cells and lands where `to_previous` is a no-op |
| Stacks.JumpedEnd | symbol.py:108-110 | `jump_end` keeps the cells and lands where `to_next` is a no-op |
| Stacks.Cleared | symbol.py:112-116 | `reset` zeroes every cell and the cursor; a well-formed stack becomes a new stack again |
| Stacks.NeighbourIndex | symbol.py:238 | the second operand of AND, OR and XOR is the cell right of the cursor, except on the last cell, where it is the cell to the left; it is always another valid cell |
| Stacks.WithCurrent | symbol.py:230 | writing the current cell changes that cell only and leaves the cursor where it was |
| Stacks.Move | symbol.py:96-110 | each of the four cursor moves keeps the cells and keeps a well-formed stack well-formed; any other character changes nothing |
| Stacks.CursorInRange | symbol.py:96-110 | no sequence of the four cursor moves takes the cursor out of [0, 7] or changes a cell |
| Stacks.Stack.constructor | symbol.py:77-84 | builds 8 distinct new cells, all 0, and the cursor 0 |
| Stacks.Stack.ToNext | symbol.py:96-98 | the state becomes `MovedNext` of the old state |
| Stacks.Stack.ToPrevious | symbol.py:100-102 | the state becomes `MovedPrevious` of the old state |
| Stacks.Stack.JumpStart | symbol.py:104-106 | the state becomes `JumpedStart` of the old state |
| Stacks.Stack.JumpEnd | symbol.py:108-110 | the state becomes `JumpedEnd` of the old state |
| Stacks.Stack.Reset | symbol.py:112-116 | the loop resets every cell, and the state becomes `Cleared` of the old state |
| Memories.Initial | symbol.py:123-127 | a new memory holds exactly one stack, with the cursor on it |
| Memories.Added | symbol.py:139-143 | `add` appends a new stack exactly when there are fewer than 15, keeps the cursor, and keeps the count in [1, 15] |
| Memories.NextStack | symbol.py:145-147 | `to_next` moves the cursor by one, is a no-op exactly on the last stack, keeps the stacks, and keeps the cursor in [0, count - 1] |
| Memories.PreviousStack | symbol.py:149-151 | `to_previous` moves the cursor back by one, is a no-op exactly on the first stack, keeps the stacks, and keeps the cursor in range |
| Memories.FirstStack | symbol.py:153-155 | `jump_start` keeps the stacks and lands where `to_previous` is a no-op |
| Memories.LastStack | symbol.py:157-159 | `jump_end` keeps the stacks and lands on the last one (count - 1), where `to_next` is a no-op |
| Memories.WithCurrentStack | symbol.py:253 | replacing the current stack leaves every other stack, the count and the cursor unchanged |
| Memories.GrowthCeiling | symbol.py:139-143 | n calls of `add` on c stacks leave min(c + n, 15) stacks, so the count never reaches 16 |
| Memories.Operation | symbol.py:139-159 | each memory operation keeps a well-formed memory well-formed and keeps every existing stack; only `add` changes the stacks, and only by appending; any other character changes nothing |
| Memories.MemoryInvariant | symbol.py:139-159 | under any sequence of memory operations the count stays in [1, 15] and never drops, the cursor stays on a stack, and the existing stacks are kept |
| Memories.CurrentStackChanged | symbol.py:229-259 | a change confined to the current stack's own objects keeps the memory valid and replaces only the current stack in its state |
| Memories.Memory.Model | symbol.py:122-127 | the memory's stacks and cursor form a well-formed memory state |
| Memories.Memory.constructor | symbol.py:123-127 | builds a memory with exactly one new stack, with the cursor 0 |
| Memories.Memory.Add | symbol.py:139-143 | the state becomes `Added` of the old state, and only new objects join the footprint |
| Memories.Memory.ToNext | symbol.py:145-147 | the state becomes `NextStack` of the old state |
| Memories.Memory.ToPrevious | symbol.py:149-151 | the state becomes `PreviousStack` of the old state |
| Memories.Memory.JumpStart | symbol.py:153-155 | the state becomes `FirstStack` of the old state |
| Memories.Memory.JumpEnd | symbol.py:157-159 | the state becomes `LastStack` of the old state |
| Tokens.MakeToken | symbol.py:165-176 | a token is valid exactly when its symbol is one of the legal symbols |
| Tokens.Symbols | symbol.py:285-286 | the symbols of a token list, one per token and in order |
| Tokens.Filter | symbol.py:210-213 | the kept characters are all legal symbols, and there are no more of them than the source has |
| Tokens.FilterSnoc | symbol.py:211-213 | scanning one more character appends it exactly when it is legal |
| Tokens.FilterPrefix | symbol.py:210-213 | scanning the character at position i extends the kept prefix by it exactly when it is legal |
| Tokens.FilterAppend | symbol.py:210-213 | filtering a concatenation is the concatenation of the filtered parts |
| Tokens.UpToStop | symbol.py:212-215 | the cut is a prefix of the legal characters, and `.` can appear in it only last |
| Tokens.Compiled | symbol.py:206-215 | the compiled stream is a prefix of the source's legal characters, so it holds legal symbols only, in source order |
| Tokens.UpToStopSplit | symbol.py:214-215 | the cut keeps everything up to and including the first `.` and drops the rest; text without `.` is kept whole |
| Tokens.UpToStopShape | symbol.py:214-215 | the cut is a prefix, holds `.` at most once and only last, ends in `.` when the text has one, and is the whole text otherwise |
| Tokens.CompiledShape | symbol.py:206-215 | the compiled stream is a prefix of the source's legal characters, in source order; `.` appears at most once, only last, and whenever the source has a `.`; without one, all legal characters are kept |
| Tokens.FilterLegal | symbol.py:210-213 | filtering a text of legal symbols keeps all of it |
| Tokens.CompiledPlain | symbol.py:206-215 | a text of legal symbols without `.` compiles to itself |
| Tokens.SymbolsAt | symbol.py:222 | the symbols up to a token are those before it followed by its own, and the rest of the stream follows |
| Tokens.CompileTwice | symbol.py:281-287 | compiling the extracted symbols again gives the same stream |
| Programs.CellEffect | symbol.py:229-247 | `~` flips the sign of the current value; every other cell symbol keeps two operands in [0, 127] inside [0, 127] |
| Programs.StackEffect | symbol.py:252-259 | `!` (symbol.py:276-277) resets the current stack; the cursor moves keep its cells; a well-formed stack stays well-formed |
| Programs.Step | symbol.py:222-277 | one symbol acts on the cell and stack resolved from the cursors at that moment; it fails exactly for `@` on a value `chr` rejects, and then reports that value; `@` otherwise prints exactly that value; no other symbol prints |
| Programs.Continue | symbol.py:221-225 | after an error the pass goes no further; otherwise it takes one more step; the memory stays well-formed |
| Programs.Resume | symbol.py:222-277 | a pass over any symbols keeps the memory well-formed |
| Programs.Run | symbol.py:221-277 | a whole pass from a well-formed memory keeps it well-formed |
| Programs.ResumeAppend | symbol.py:222 | a pass over a + b is the pass over a continued over b |
| Programs.ResumeAfterError | symbol.py:272-273 | once `chr` has failed, the remaining symbols do nothing |
| Programs.RunSnoc | symbol.py:222 | a pass over cs followed by c is the pass over cs continued by c |
| Programs.RunStopsAtError | symbol.py:272-273 | a pass that fails on a prefix ends there: the symbols after it are never run |
| Programs.StepFrame | symbol.py:225-277 | each symbol touches only what it names: a cell symbol only the current cell; a stack symbol only the current stack (only its cursor, except `!`); a memory symbol keeps every existing stack; `@` and `.` change nothing |
| Programs.BinaryOperand | symbol.py:237-247 | AND, OR and XOR combine the current cell with the cell at index p + 1 when p < 7, and at p - 1 otherwise |
| Programs.StepKeepsDomain | symbol.py:225-277 | every symbol except `~` keeps all cells in [0, 127] and cannot fail |
| Programs.DomainWithoutNot | symbol.py:221-277 | a pass without `~`, starting with all cells in [0, 127], keeps them there and never fails |
| Programs.Program.constructor | symbol.py:194-197 | empty source, no tokens, and a new memory |
| Programs.Program.Write | symbol.py:202-204 | the source is replaced by the given text, and the program stays valid |
| Programs.Program.Load | symbol.py:206-217 | empty source: `EmptySource`, and the old tokens are kept; otherwise the tokens' symbols are exactly the compiled stream, all of them legal |
| Programs.Program.Execute | symbol.py:219-279 | no tokens: `NotCompiled` and no change; otherwise the new memory, the output and the error are exactly those of `Run` over the token symbols from the old memory |
| Programs.Program.Dispatch | symbol.py:223-277 | one token changes the memory as `Step` says, or reports its error and changes nothing |
| Programs.Program.Operate | symbol.py:229-247 | a cell symbol calls the matching `Cell` method |
| Programs.Program.ApplyToCell | symbol.py:229-247 | a cell symbol changes the memory exactly as `Step` says |
| Programs.Program.ApplyToStack | symbol.py:252-259 | a stack symbol changes the memory exactly as `Step` says |
| Programs.Program.Extract | symbol.py:281-289 | no tokens: `NotCompiled`; otherwise the token symbols, one per token, in order |
| Programs.Program.Clear | symbol.py:291-295 | empty source, no tokens, and a new one-stack memory with both cursors at 0 |
| Programs.CompiledAfterStop | symbol.py:214-215 | when the scan reaches the first legal `.`, what has been kept so far is the whole compiled stream |
| Scenarios.ContinueUnary | symbol.py:229-236 | a unary cell symbol sets the current cell to its effect, leaves every other cell, cursor and stack as it was, prints nothing and cannot fail |
| Scenarios.ContinueEmit | symbol.py:272-273 | `@` prints the current value when `chr` accepts it, and fails with that value otherwise |
| Scenarios.Doublings | symbol.py:40-42 | n doublings of -2^j give -2^(j + n): on a negative value `double` never stops, and nothing is printed |
| Scenarios.Additions | symbol.py:274-275 | n `_` symbols act as n calls of `add` |
| Scenarios.AddedTimesSnoc | symbol.py:139-143 | calling `add` n + 1 times is calling it n times and then once more |
| Scenarios.Increments | symbol.py:32-34 | n `+` symbols on a new memory count the current cell up to n, stopping at 127, and print nothing |
| Scenarios.ThreeIncrements | symbol.py:229-230 | `+++@` compiles to itself and prints exactly code point 3 |
| Scenarios.StopTruncates | symbol.py:214-215 | `++.++@` compiles to `++.`, which prints nothing |
| Scenarios.IllegalDropped | symbol.py:210-213 | `+?+@` compiles to `++@` |
| Scenarios.TwoIncrements | symbol.py:272-273 | `++@` prints exactly code point 2 |
| Scenarios.NotThenEmit | symbol.py:64-66 | `~@` fails with the value -1 and prints nothing |
| Scenarios.HalfOfNegative | symbol.py:46 | `~/@` prints code point 1 |
| Scenarios.NegativePower | symbol.py:40-42 | `~` then k doublings leave -2^k in the current cell, print nothing and do not fail |
| Scenarios.NotDoubleNot | symbol.py:56-66 | `~`, k doublings, `~`, `@` reaches 2^k - 1: printed when `chr` accepts it, an error otherwise |
| Scenarios.BeyondTheDomain | symbol.py:64-66 | concretely, 255 is printed and 2^21 - 1 is rejected |
| Scenarios.GrowTwenty | symbol.py:139-143 | twenty `_` symbols on a new memory leave exactly 15 stacks |
| Scenarios.SecondPassSeesFirst | symbol.py:219-230 | `+@` prints 1; run again on the memory it left, it prints 2 |
| Scenarios.RerunAfterFailure | symbol.py:56-66 | `~@` run again on the memory its failed pass left prints code point 0 and does not fail |
| Scenarios.CompileCommand | symbol.py:383-387 | the editor's compile command: the source becomes the text and the memory is untouched; empty text reports `EmptySource` and keeps the old tokens; otherwise the tokens' symbols are exactly the compiled stream |
| Scenarios.RunCommand | symbol.py:390-394 | the editor's run command: no tokens gives `NotCompiled`; otherwise the output and error are exactly those of `Run` from the old memory; after a `chr` failure the source text and the tokens are kept and the memory is the one the failed pass left; otherwise `clear` leaves empty source, no tokens and a new memory |
| Scenarios.RunAfterFailure | symbol.py:390-394 | compiling `~@` and giving the run command twice: the first run fails on -1, `clear` is skipped, and the second run prints code point 0 |
| Scenarios.CompileAndRun | symbol.py:383-394 | the compile command and then the run command on a new program: `EmptySource` for empty text, `NotCompiled` when nothing compiles, and otherwise exactly `Run` of the compiled stream on a new memory |
| Scenarios.CompileAndRunOn | symbol.py:202-279 | on a program without tokens and with a new memory, write, load and execute give `EmptySource`, `NotCompiled`, or exactly `Run` of the compiled stream; the program is left holding the text as its source, the compiled tokens, and the memory that pass leaves (a new memory when nothing ran) |
| Scenarios.RunTwiceWithClear | symbol.py:291-295 | when `clear` runs in between, the same source prints the same output twice, and after `clear` `extract` reports `NotCompiled` |

## Left out

- The `Editor` class (symbol.py:301-521) and the `__main__` block: the
  tkinter user interface, menus, file dialogs and file I/O.
  `Scenarios.CompileCommand` and `Scenarios.RunCommand` follow the order
  in which the compile and run commands call the core.  The compile
  command reads the code area up to `tk.END`, which always ends in a
  newline, so `EmptySource` cannot arise from the editor; the model takes
  any text.
- `tmsg.showerror` dialogs are returned as `Error` values.  `print` in
  `Cell.output` and `extract` becomes returned code points and symbols.
  The blank lines `extract` prints around the symbols are not modelled.
- Cells.Halved: Python computes `half` with float division, then `int`.
  Above 2^53, a value reachable only through `~` after more than fifty
  doublings of a negative value, the float rounds.  Above about 2^1024,
  `/` raises `OverflowError`.  The model uses exact floor division for
  every non-negative value.
- Cells.Cell.Half: the same float-division limit as `Cells.Halved`.
- Cells.Cell.Output: `chr` is modelled as accepting 0 to 0x10FFFF.  Writing
  a lone surrogate code point (0xD800 to 0xDFFF) to the console may still
  fail in the terminal's encoder.  That is console I/O and is not modelled.
- The Token getters `symbol` and `is_valid` are the fields of the `Token`
  datatype.  Stored tokens are valid by `Program.Valid`.
- `Program.execute` as one method: the model splits the dispatch into
  `Dispatch`, `ApplyToCell`, `Operate` and `ApplyToStack`.  Each resolves
  the current stack and cell afresh, as symbol.py:223-224 do.

=== FILE: bits.dfy ===
/**
 * Python's bitwise operators on unbounded integers.
 *
 * Python treats an `int` as an infinite two's-complement bit string: a
 * non-negative number ends in infinitely many 0 bits, a negative one in
 * infinitely many 1 bits.  The operators below follow that reading bit by
 * bit, taking the lowest bit with `% 2` and the rest with `/ 2`; both are
 * Euclidean in Dafny, which for the divisor 2 is exactly floor division,
 * so `x == 2 * (x / 2) + x % 2` with `x % 2` the lowest bit, also for x < 0.
 */
module Bits {

  /** 2 to the power n. */
  function Pow2(n: nat): (r: nat)
    ensures r >= 1
  {
    if n == 0 then 1 else 2 * Pow2(n - 1)
  }

  /** How far x is from its own sign extension: 0 exactly for 0 and -1. */
  function Mag(x: int): nat
  {
    if x >= 0 then x else -x - 1
  }

  /** Dropping the lowest bit halves the magnitude and keeps the sign. */
  lemma {:induction false} MagHalf(x: int)
    ensures Mag(x / 2) == Mag(x) / 2
    ensures x / 2 < 0 <==> x < 0
  {
  }

  /** Python's `~x`. */
  function Not(x: int): (r: int)
    ensures r < 0 <==> x >= 0
    ensures Mag(r) == Mag(x)
  {
    -x - 1
  }

  /** Python's `a & b`.  The result is negative (ends in 1 bits) exactly
      when both operands are. */
  function And(a: int, b: int): (r: int)
    ensures r < 0 <==> a < 0 && b < 0
    decreases Mag(a) + Mag(b)
  {
    if (a == 0 || a == -1) && (b == 0 || b == -1) then (if a == -1 && b == -1 then -1 else 0)
    else
      MagHalf(a); MagHalf(b);
      2 * And(a / 2, b / 2) + (if a % 2 == 1 && b % 2 == 1 then 1 else 0)
  }

  /** Python's `a | b`.  The result is negative exactly when either
      operand is. */
  function Or(a: int, b: int): (r: int)
    ensures r < 0 <==> a < 0 || b < 0
    decreases Mag(a) + Mag(b)
  {
    if (a == 0 || a == -1) && (b == 0 || b == -1) then (if a == -1 || b == -1 then -1 else 0)
    else
      MagHalf(a); MagHalf(b);
      2 * Or(a / 2, b / 2) + (if a % 2 == 1 || b % 2 == 1 then 1 else 0)
  }

  /** Python's `a ^ b`.  The result is negative exactly when the operands'
      signs differ. */
  function Xor(a: int, b: int): (r: int)
    ensures r < 0 <==> (a < 0) != (b < 0)
    decreases Mag(a) + Mag(b)
  {
    if (a == 0 || a == -1) && (b == 0 || b == -1) then (if a == b then 0 else -1)
    else
      MagHalf(a); MagHalf(b);
      2 * Xor(a / 2, b / 2) + (a % 2 + b % 2) % 2
  }

  /** A bit appended below q is recovered by `/ 2` and `% 2`. */
  lemma {:induction false} SplitBit(q: int, r: int)
    requires r == 0 || r == 1
    ensures (2 * q + r) / 2 == q && (2 * q + r) % 2 == r
  {
  }

  /** The lowest bit of `a ^ b` is the sum of the operands' lowest bits
      modulo 2, and the remaining bits are the exclusive or of theirs; this
      holds also when both operands are already 0 or -1. */
  lemma {:induction false} XorBits(a: int, b: int)
    ensures Xor(a, b) == 2 * Xor(a / 2, b / 2) + (a % 2 + b % 2) % 2
  {
  }

  /** On operands in [0, 2^n) each operator stays in [0, 2^n): a value of n
      bits cannot gain a bit it did not have, and cannot lose its 0 sign. */
  lemma {:induction false} BoundedOps(a: int, b: int, n: nat)
    requires 0 <= a < Pow2(n) && 0 <= b < Pow2(n)
    ensures 0 <= And(a, b) < Pow2(n)
    ensures 0 <= Or(a, b) < Pow2(n)
    ensures 0 <= Xor(a, b) < Pow2(n)
  {
    if n == 0 {
      assert a == 0 && b == 0;
    } else if (a == 0 || a == -1) && (b == 0 || b == -1) {
      assert a == 0 && b == 0;
    } else {
      BoundedOps(a / 2, b / 2, n - 1);
    }
  }

  /** The 7-bit cell domain [0, 127] is closed under `&`, `|` and `^`. */
  lemma {:induction false} SevenBitOps(a: int, b: int)
    requires 0 <= a <= 127 && 0 <= b <= 127
    ensures 0 <= And(a, b) <= 127
    ensures 0 <= Or(a, b) <= 127
    ensures 0 <= Xor(a, b) <= 127
  {
    assert Pow2(7) == 128;
    BoundedOps(a, b, 7);
  }

  /** `a ^ b` split into its lowest bit and the bits above it. */
  lemma {:induction false} XorHalves(a: int, b: int)
    ensures Xor(a, b) / 2 == Xor(a / 2, b / 2)
    ensures Xor(a, b) % 2 == (a % 2 + b % 2) % 2
  {
    XorBits(a, b);
    SplitBit(Xor(a / 2, b / 2), (a % 2 + b % 2) % 2);
  }

  /** Adding the bit q twice modulo 2 leaves the bit p unchanged. */
  lemma {:induction false} ParityCancel(p: int, q: int, s: int)
    requires (p == 0 || p == 1) && (q == 0 || q == 1) && s == (p + q) % 2
    ensures (s + q) % 2 == p
  {
  }

  /** A value is twice its upper bits plus its lowest bit. */
  lemma {:induction false} Recompose(v: int, high: int, low: int)
    requires high == v / 2 && low == v % 2
    ensures 2 * high + low == v
  {
  }

  /** One bit of the proof that `^` undoes itself: if it does so on the
      bits above the lowest, it does so on the whole value. */
  lemma {:induction false} XorTwiceStep(a: int, b: int)
    requires Xor(Xor(a / 2, b / 2), b / 2) == a / 2
    ensures Xor(Xor(a, b), b) == a
  {
    var x := Xor(a, b);
    XorHalves(a, b);
    XorBits(x, b);
    ParityCancel(a % 2, b % 2, x % 2);
    Recompose(a, Xor(x / 2, b / 2), (x % 2 + b % 2) % 2);
  }

  /** Combining twice with the same operand under `^` gives back the
      original value, for every pair of integers. */
  lemma {:induction false} XorTwice(a: int, b: int)
    ensures Xor(Xor(a, b), b) == a
    decreases Mag(a) + Mag(b)
  {
    if (a == 0 || a == -1) && (b == 0 || b == -1) {
      assert Xor(Xor(a, b), b) == a;
    } else {
      MagHalf(a); MagHalf(b);
      XorTwice(a / 2, b / 2);
      XorTwiceStep(a, b);
    }
  }

}

=== FILE: cells.dfy ===
/**
 * A Cell is the interpreter's single integer register.  Every operation
 * except `~` keeps a value that starts in [0, MAX] inside [0, MAX]; `~`
 * takes Python's `~` literally, so a value can become negative, and from
 * there the clamped operations, which only compare against their bounds,
 * can carry it arbitrarily far from the nominal domain.
 */
module Cells {
  import opened Bits
  import opened Wrappers

  /** The ceiling `increment` and `double` respect. */
  const MAX: int := 127

  /** The largest code point Python's `chr` accepts. */
  const MAX_CODE_POINT: int := 0x10FFFF

  /** The nominal 7-bit domain of a cell. */
  predicate InDomain(v: int)
  {
    0 <= v <= MAX
  }

  /** The value after `increment`: one step up, unless that would pass MAX. */
  function Incremented(v: int): (r: int)
    ensures r == v || r == v + 1
    ensures r == v <==> v >= MAX
    ensures r <= MAX || r == v
  {
    if v < MAX then v + 1 else v
  }

  /** The value after `decrement`: one step down, unless that would pass 0;
      a value already at or below 0 (possible after `~`) stays put. */
  function Decremented(v: int): (r: int)
    ensures r == v || r == v - 1
    ensures r == v <==> v <= 0
    ensures r >= 0 || r == v
  {
    if v > 0 then v - 1 else v
  }

  /** The value after `double`: doubled when the double does not exceed MAX,
      otherwise unchanged (no saturation).  A negative value always doubles. */
  function Doubled(v: int): (r: int)
    ensures r == 2 * v || r == v
    ensures r == 2 * v <==> 2 * v <= MAX
    ensures v <= MAX ==> r <= MAX
  {
    if v * 2 <= MAX then v * 2 else v
  }

  /** The value after `half`: floor division by 2 for a non-negative value,
      and exactly 1 for a negative one. */
  function Halved(v: int): (r: int)
    ensures v >= 0 ==> 0 <= r && (2 * r == v || 2 * r + 1 == v)
    ensures v < 0 ==> r == 1
  {
    if v * 2 >= 0 then v / 2 else 1
  }

  /** Whether Python's `chr` accepts v. */
  predicate IsCodePoint(v: int)
  {
    0 <= v <= MAX_CODE_POINT
  }

  /** Every operation except `~` maps the domain into itself; the binary ones
      need their second operand in the domain as well. */
  lemma {:induction false} DomainClosed(v: int, other: int)
    requires InDomain(v) && InDomain(other)
    ensures InDomain(Incremented(v)) && InDomain(Decremented(v))
    ensures InDomain(Doubled(v)) && InDomain(Halved(v))
    ensures InDomain(And(v, other)) && InDomain(Or(v, other)) && InDomain(Xor(v, other))
  {
    SevenBitOps(v, other);
  }

  /** `~` leaves the domain: it maps [0, MAX] into [-MAX - 1, -1], where
      `chr` rejects every value, `half` gives 1 and
      `double` keeps doubling. */
  lemma {:induction false} NotLeavesDomain(v: int)
    requires InDomain(v)
    ensures -MAX - 1 <= Not(v) <= -1
    ensures !IsCodePoint(Not(v))
    ensures Halved(Not(v)) == 1
    ensures Doubled(Not(v)) == 2 * Not(v) < Not(v)
  {
  }

  /** A single register.  Its value starts at 0 and changes only through
      the methods below. */
  class Cell {
    var value: int

    constructor()
      ensures value == 0
    {
      value := 0;
    }

    method Increment()
      modifies this
      ensures value == Incremented(old(value))
    {
      value := value + if value < MAX then 1 else 0;
    }

    method Decrement()
      modifies this
      ensures value == Decremented(old(value))
    {
      value := value - if value > 0 then 1 else 0;
    }

    method Double()
      modifies this
      ensures value == Doubled(old(value))
    {
      value := value * if value * 2 <= MAX then 2 else 1;
    }

    method Half()
      modifies this
      ensures value == Halved(old(value))
    {
      value := if value * 2 >= 0 then value / 2 else 1;
    }

    method BitwiseAnd(other: int)
      modifies this
      ensures value == And(old(value), other)
    {
      value := And(value, other);
    }

    method BitwiseOr(other: int)
      modifies this
      ensures value == Or(old(value), other)
    {
      value := Or(value, other);
    }

    method BitwiseNot()
      modifies this
      ensures value == -old(value) - 1
    {
      value := Not(value);
    }

    method BitwiseXor(other: int)
      modifies this
      ensures value == Xor(old(value), other)
    {
      value := Xor(value, other);
    }

    /** The code point `output` prints, or None where `chr` raises. */
    method Output() returns (code: Option<int>)
      ensures code.Some? <==> IsCodePoint(value)
      ensures code.Some? ==> code.value == value
    {
      if 0 <= value <= MAX_CODE_POINT {
        code := Some(value);
      } else {
        code := None;
      }
    }

    method Reset()
      modifies this
      ensures value == 0
    {
      value := 0;
    }
  }
}

=== FILE: memories.dfy ===
/**
 * Memory is the append-only list of stacks with its own cursor.  It starts
 * with one stack and grows one stack per `add`, but `add` compares the count
 * against LIMIT - 1, so it never holds more than LIMIT - 1 = 15 stacks.
 */
module Memories {
  import Stacks

  /** The nominal capacity; the reachable maximum is one less. */
  const LIMIT: int := 16

  /** The observable state of the memory: its stacks and the cursor. */
  datatype MemoryState = MemoryState(stacks: seq<Stacks.StackState>, pointer: int)

  /** Between 1 and LIMIT - 1 well-formed stacks, the cursor on one of them. */
  predicate Wf(m: MemoryState)
  {
    1 <= |m.stacks| <= LIMIT - 1 && 0 <= m.pointer < |m.stacks| &&
    forall i | 0 <= i < |m.stacks| :: Stacks.Wf(m.stacks[i])
  }

  /** A newly built memory: exactly one fresh stack, the cursor on it. */
  function Initial(): (m: MemoryState)
    ensures Wf(m) && |m.stacks| == 1 && m.pointer == 0
  {
    MemoryState([Stacks.Fresh()], 0)
  }

  /** `add`: a fresh stack is appended only while there are fewer than
      LIMIT - 1; the existing stacks and the cursor are untouched. */
  function Added(m: MemoryState): (r: MemoryState)
    ensures r.pointer == m.pointer
    ensures |m.stacks| < LIMIT - 1 ==> r.stacks == m.stacks + [Stacks.Fresh()]
    ensures |m.stacks| >= LIMIT - 1 ==> r == m
    ensures Wf(m) ==> Wf(r)
  {
    if |m.stacks| < LIMIT - 1 then m.(stacks := m.stacks + [Stacks.Fresh()]) else m
  }

  /** `to_next`: the next stack, a no-op on the last one. */
  function NextStack(m: MemoryState): (r: MemoryState)
    ensures r.stacks == m.stacks
    ensures Wf(m) ==> Wf(r)
    ensures r.pointer == m.pointer <==> m.pointer >= |m.stacks| - 1
    ensures r.pointer == m.pointer || r.pointer == m.pointer + 1
  {
    m.(pointer := m.pointer + if m.pointer < |m.stacks| - 1 then 1 else 0)
  }

  /** `to_previous`: the previous stack, a no-op on the first one. */
  function PreviousStack(m: MemoryState): (r: MemoryState)
    ensures r.stacks == m.stacks
    ensures Wf(m) ==> Wf(r)
    ensures r.pointer == m.pointer <==> m.pointer <= 0
    ensures r.pointer == m.pointer || r.pointer == m.pointer - 1
  {
    m.(pointer := m.pointer - if m.pointer > 0 then 1 else 0)
  }

  /** `jump_start`: the cursor goes to the first stack. */
  function FirstStack(m: MemoryState): (r: MemoryState)
    ensures r.stacks == m.stacks
    ensures Wf(m) ==> Wf(r) && PreviousStack(r) == r
  {
    m.(pointer := 0)
  }

  /** `jump_end`: the cursor goes to the last stack there is now. */
  function LastStack(m: MemoryState): (r: MemoryState)
    ensures r.stacks == m.stacks
    ensures Wf(m) ==> Wf(r) && NextStack(r) == r
  {
    m.(pointer := |m.stacks| - 1)
  }

  /** The stack under the memory's cursor. */
  function CurrentStack(m: MemoryState): Stacks.StackState
    requires Wf(m)
  {
    m.stacks[m.pointer]
  }

  /** The memory with the stack under the cursor replaced by s. */
  function WithCurrentStack(m: MemoryState, s: Stacks.StackState): (r: MemoryState)
    requires Wf(m) && Stacks.Wf(s)
    ensures Wf(r) && r.pointer == m.pointer && CurrentStack(r) == s
    ensures |r.stacks| == |m.stacks|
    ensures forall i | 0 <= i < |m.stacks| && i != m.pointer :: r.stacks[i] == m.stacks[i]
  {
    m.(stacks := m.stacks[m.pointer := s])
  }

  /** `add` called n times in a row. */
  function AddedTimes(m: MemoryState, n: nat): MemoryState
    decreases n
  {
    if n == 0 then m else AddedTimes(Added(m), n - 1)
  }

  /** Growing a memory of c stacks n times leaves min(c + n, LIMIT - 1)
      stacks: the count never reaches LIMIT. */
  lemma {:induction false} GrowthCeiling(m: MemoryState, n: nat)
    requires Wf(m)
    ensures Wf(AddedTimes(m, n))
    ensures |AddedTimes(m, n).stacks| ==
              if |m.stacks| + n <= LIMIT - 1 then |m.stacks| + n else LIMIT - 1
    decreases n
  {
    if n > 0 {
      GrowthCeiling(Added(m), n - 1);
    }
  }

  /** One memory operation, by its symbol in the language: `}` `{` `[` `]`
      `_`; any other character leaves the memory alone.  Only `_` changes
      the stacks, and then only by appending. */
  function Operation(m: MemoryState, op: char): (r: MemoryState)
    ensures Wf(m) ==> Wf(r) && |r.stacks| >= |m.stacks| && r.stacks[..|m.stacks|] == m.stacks
    ensures op != '_' ==> r.stacks == m.stacks
    ensures op != '}' && op != '{' && op != '[' && op != ']' && op != '_' ==> r == m
  {
    match op
    case '}' => NextStack(m)
    case '{' => PreviousStack(m)
    case '[' => FirstStack(m)
    case ']' => LastStack(m)
    case '_' => Added(m)
    case _ => m
  }

  /** A run of memory operations, left to right. */
  function Operations(m: MemoryState, ops: seq<char>): MemoryState
    decreases |ops|
  {
    if ops == [] then m else Operations(Operation(m, ops[0]), ops[1..])
  }

  /** Under any run of memory operations the count stays in [1, LIMIT - 1],
      never decreases, the cursor stays on an existing stack, and the stacks
      already present keep their contents. */
  lemma {:induction false} MemoryInvariant(m: MemoryState, ops: seq<char>)
    requires Wf(m)
    ensures Wf(Operations(m, ops))
    ensures |Operations(m, ops).stacks| >= |m.stacks|
    ensures Operations(m, ops).stacks[..|m.stacks|] == m.stacks
    decreases |ops|
  {
    if ops != [] {
      var next := Operation(m, ops[0]);
      MemoryInvariant(next, ops[1..]);
      assert next.stacks[..|m.stacks|] == m.stacks;
    }
  }

  /** The list of stacks with a cursor. */
  class Memory {
    var stacks: seq<Stacks.Stack>
    var pointer: int
    ghost var Repr: set<object>

    ghost predicate Valid()
      reads this, Repr
    {
      this in Repr &&
      1 <= |stacks| <= LIMIT - 1 && 0 <= pointer < |stacks| &&
      (forall i | 0 <= i < |stacks| ::
         stacks[i] in Repr && stacks[i].Repr <= Repr && this !in stacks[i].Repr &&
         stacks[i].Valid()) &&
      (forall i, j | 0 <= i < j < |stacks| :: stacks[i].Repr !! stacks[j].Repr)
    }

    ghost function Model(): (m: MemoryState)
      reads this, Repr
      requires Valid()
      ensures Wf(m) && |m.stacks| == |stacks| && m.pointer == pointer
      ensures forall i | 0 <= i < |stacks| :: m.stacks[i] == stacks[i].Model()
    {
      MemoryState(seq(|stacks|, i requires 0 <= i < |stacks| && Valid() reads this, Repr => stacks[i].Model()), pointer)
    }

    constructor()
      ensures Valid() && fresh(Repr)
      ensures Model() == Initial()
    {
      var stack := new Stacks.Stack();
      stacks := [stack];
      pointer := 0;
      Repr := {this} + stack.Repr;
    }

    method Add()
      requires Valid()
      modifies this
      ensures Valid() && fresh(Repr - old(Repr))
      ensures Model() == Added(old(Model()))
    {
      if |stacks| < LIMIT - 1 {
        var stack := new Stacks.Stack();
        stacks := stacks + [stack];
        Repr := Repr + stack.Repr;
      }
    }

    method ToNext()
      requires Valid()
      modifies this
      ensures Valid() && Repr == old(Repr)
      ensures Model() == NextStack(old(Model()))
    {
      pointer := pointer + if pointer < |stacks| - 1 then 1 else 0;
    }

    method ToPrevious()
      requires Valid()
      modifies this
      ensures Valid() && Repr == old(Repr)
      ensures Model() == PreviousStack(old(Model()))
    {
      pointer := pointer - if pointer > 0 then 1 else 0;
    }

    method JumpStart()
      requires Valid()
      modifies this
      ensures Valid() && Repr == old(Repr)
      ensures Model() == FirstStack(old(Model()))
    {
      pointer := 0;
    }

    method JumpEnd()
      requires Valid()
      modifies this
      ensures Valid() && Repr == old(Repr)
      ensures Model() == LastStack(old(Model()))
    {
      pointer := |stacks| - 1;
    }
  }

  /** When a change touched only the current stack's own objects and left
      that stack valid, the memory is still valid and its model is the old
      one with the current stack replaced by the stack's new model. */
  twostate lemma CurrentStackChanged(mem: Memory)
    requires old(mem.Valid())
    requires forall o: object | o in old(mem.Repr) && o !in old(mem.stacks[mem.pointer].Repr) :: unchanged(o)
    requires mem.stacks[mem.pointer].Valid()
    ensures mem.Valid() && mem.Repr == old(mem.Repr)
    ensures mem.Model() == WithCurrentStack(old(mem.Model()), mem.stacks[mem.pointer].Model())
  {
    var p := mem.pointer;
    forall i | 0 <= i < |mem.stacks| && i != p
      ensures mem.stacks[i].Valid() && mem.stacks[i].Model() == old(mem.stacks[i].Model())
    {
      var t := mem.stacks[i];
      assert t in t.Repr && t.Repr !! mem.stacks[p].Repr by {
        if i < p {} else {}
      }
      assert unchanged(t);
      assert forall k | 0 <= k < Stacks.LIMIT :: unchanged(t.cells[k]);
    }
  }
}

=== FILE: programs.dfy ===
/**
 * The Program: it holds the source text, the compiled tokens and one
 * Memory.  `load` compiles the source, `execute` interprets the tokens in
 * one linear pass against the memory, `extract` lists the compiled
 * symbols and `clear` starts over.  The functions below give the meaning
 * of one symbol and of a whole pass on memory values; the class proves its
 * methods against them.
 */
module Programs {
  import opened Wrappers
  import opened Bits
  import opened Cells
  import opened Tokens
  import Stacks
  import Memories

  /** The errors the program reports instead of acting. */
  datatype Error =
    | EmptySource                     // `load` on an empty source text
    | NotCompiled                     // `execute` or `extract` without tokens
    | OutOfRangeCharacter(value: int) // `@` on a value `chr` rejects

  /** What one symbol does: the new memory and the code points it prints. */
  datatype Outcome = Outcome(memory: Memories.MemoryState, emitted: seq<int>)

  /** Where a pass ended: the memory, everything printed, and the error that
      stopped it, if any. */
  datatype Execution = Execution(memory: Memories.MemoryState, output: seq<int>, error: Option<Error>)

  /** The symbols that act on the cell under the cursors. */
  predicate IsCellSymbol(c: char)
  {
    c == '+' || c == '-' || c == '*' || c == '/' ||
    c == '&' || c == '|' || c == '~' || c == '^'
  }

  /** The symbols that act on the current stack. */
  predicate IsStackSymbol(c: char)
  {
    c == '<' || c == '>' || c == '(' || c == ')' || c == '!'
  }

  /** The symbols that act on the memory itself. */
  predicate IsMemorySymbol(c: char)
  {
    c == '{' || c == '}' || c == '[' || c == ']' || c == '_'
  }

  /** The new value of the current cell under a cell symbol, given its value
      v and its neighbour's value nb.  `~` flips the sign; every other cell
      symbol keeps two operands in [0, MAX] inside that range. */
  function CellEffect(c: char, v: int, nb: int): (r: int)
    requires IsCellSymbol(c)
    ensures c == '~' ==> (r < 0 <==> v >= 0)
    ensures c != '~' && InDomain(v) && InDomain(nb) ==> InDomain(r)
  {
    var r := match c
      case '+' => Incremented(v)
      case '-' => Decremented(v)
      case '*' => Doubled(v)
      case '/' => Halved(v)
      case '&' => And(v, nb)
      case '|' => Or(v, nb)
      case '~' => Not(v)
      case '^' => Xor(v, nb);
    if InDomain(v) && InDomain(nb) then DomainClosed(v, nb); r else r
  }

  /** The new current stack under a stack symbol: `!` resets it, and the
      others are the cursor moves. */
  function StackEffect(c: char, s: Stacks.StackState): (r: Stacks.StackState)
    requires IsStackSymbol(c)
    ensures c == '!' ==> r == Stacks.Cleared(s)
    ensures c != '!' ==> r.cells == s.cells
    ensures Stacks.Wf(s) ==> Stacks.Wf(r)
  {
    if c == '!' then Stacks.Cleared(s) else Stacks.Move(s, c)
  }

  /** The value of the cell under both cursors. */
  function CurrentValue(m: Memories.MemoryState): int
    requires Memories.Wf(m)
  {
    Stacks.Current(Memories.CurrentStack(m))
  }

  /** The memory with the cell under both cursors set to v. */
  function WithCurrentValue(m: Memories.MemoryState, v: int): Memories.MemoryState
    requires Memories.Wf(m)
  {
    Memories.WithCurrentStack(m, Stacks.WithCurrent(Memories.CurrentStack(m), v))
  }

  /** One symbol's effect, with the stack and cell resolved from the
      cursors as they are when the symbol is reached. */
  function Step(m: Memories.MemoryState, c: char): (r: Result<Outcome, Error>)
    requires Memories.Wf(m)
    ensures r.Success? ==> Memories.Wf(r.value.memory)
    ensures r.Failure? <==> c == '@' && !IsCodePoint(CurrentValue(m))
    ensures r.Failure? ==> r.error == OutOfRangeCharacter(CurrentValue(m))
    ensures r.Success? && c == '@' ==> r.value.emitted == [CurrentValue(m)]
    ensures r.Success? && c != '@' ==> r.value.emitted == []
  {
    var s := Memories.CurrentStack(m);
    if IsCellSymbol(c) then
      Success(Outcome(WithCurrentValue(m, CellEffect(c, Stacks.Current(s), Stacks.Neighbour(s))), []))
    else if IsStackSymbol(c) then
      Success(Outcome(Memories.WithCurrentStack(m, StackEffect(c, s)), []))
    else if IsMemorySymbol(c) then
      Success(Outcome(Memories.Operation(m, c), []))
    else if c == '@' then
      var v := Stacks.Current(s);
      if IsCodePoint(v) then Success(Outcome(m, [v])) else Failure(OutOfRangeCharacter(v))
    else
      Success(Outcome(m, []))
  }

  /** A pass continued by one more symbol: nothing happens after an error;
      otherwise the symbol's step, whose failure becomes the pass's error. */
  function Continue(e: Execution, c: char): (r: Execution)
    requires Memories.Wf(e.memory)
    ensures Memories.Wf(r.memory)
    ensures e.error.Some? ==> r == e
  {
    if e.error.Some? then e
    else match Step(e.memory, c)
      case Success(o) => Execution(o.memory, e.output + o.emitted, None)
      case Failure(err) => Execution(e.memory, e.output, Some(err))
  }

  /** The pass e continued over the symbols cs, left to right; the first
      error stops it, keeping what the earlier symbols did and printed. */
  function Resume(e: Execution, cs: string): (r: Execution)
    requires Memories.Wf(e.memory)
    ensures Memories.Wf(r.memory)
    decreases |cs|
  {
    if cs == [] then e else Continue(Resume(e, cs[..|cs| - 1]), cs[|cs| - 1])
  }

  /** A whole pass over cs starting from the memory m. */
  function Run(m: Memories.MemoryState, cs: string): (e: Execution)
    requires Memories.Wf(m)
    ensures Memories.Wf(e.memory)
  {
    Resume(Execution(m, [], None), cs)
  }

  /** A pass over a + b is the pass over a continued over b. */
  lemma {:induction false} ResumeAppend(e: Execution, a: string, b: string)
    requires Memories.Wf(e.memory)
    ensures Resume(e, a + b) == Resume(Resume(e, a), b)
    decreases |b|
  {
    if b == [] {
      assert a + b == a;
    } else {
      var b' := b[..|b| - 1];
      assert (a + b)[..|a + b| - 1] == a + b';
      ResumeAppend(e, a, b');
    }
  }

  /** Once a pass has failed, further symbols change nothing: the error
      ends the pass. */
  lemma {:induction false} ResumeAfterError(e: Execution, cs: string)
    requires Memories.Wf(e.memory) && e.error.Some?
    ensures Resume(e, cs) == e
    decreases |cs|
  {
    if cs != [] {
      ResumeAfterError(e, cs[..|cs| - 1]);
    }
  }

  /** A pass that has failed on a ends there: the symbols after a are
      never run. */
  lemma {:induction false} RunStopsAtError(m: Memories.MemoryState, a: string, b: string)
    requires Memories.Wf(m) && Run(m, a).error.Some?
    ensures Run(m, a + b) == Run(m, a)
  {
    ResumeAppend(Execution(m, [], None), a, b);
    ResumeAfterError(Run(m, a), b);
  }

  /** A pass over cs followed by c is the pass over cs continued by c. */
  lemma {:induction false} RunSnoc(m: Memories.MemoryState, cs: string, c: char)
    requires Memories.Wf(m)
    ensures Run(m, cs + [c]) == Continue(Run(m, cs), c)
  {
    assert (cs + [c])[..|cs|] == cs;
  }

  /** Each symbol touches only what it names.  A cell symbol changes only
      the cell under both cursors; a stack symbol only the current stack,
      and only its cursor unless it is `!`; a memory symbol keeps every
      existing stack and only moves the cursor or appends; `@`, `.` and any
      other character leave the memory as it was. */
  lemma {:induction false} StepFrame(m: Memories.MemoryState, c: char)
    requires Memories.Wf(m) && Step(m, c).Success?
    ensures var m' := Step(m, c).value.memory;
      var p := m.pointer;
      var s := m.stacks[p];
      (IsCellSymbol(c) || IsStackSymbol(c) ==>
         m'.pointer == p && |m'.stacks| == |m.stacks| &&
         forall i | 0 <= i < |m.stacks| && i != p :: m'.stacks[i] == m.stacks[i]) &&
      (IsCellSymbol(c) ==>
         m'.stacks[p].pointer == s.pointer &&
         forall k | 0 <= k < Stacks.LIMIT && k != s.pointer :: m'.stacks[p].cells[k] == s.cells[k]) &&
      (IsStackSymbol(c) && c != '!' ==> m'.stacks[p].cells == s.cells) &&
      (IsMemorySymbol(c) ==>
         |m'.stacks| >= |m.stacks| && m'.stacks[..|m.stacks|] == m.stacks) &&
      (!IsCellSymbol(c) && !IsStackSymbol(c) && !IsMemorySymbol(c) ==> m' == m)
  {
  }

  /** `&`, `|` and `^` take their second operand from the cell right of the
      cursor, or from the one left of it when the cursor is on the last
      cell, and store the result in the cell under the cursor. */
  lemma {:induction false} BinaryOperand(m: Memories.MemoryState, c: char)
    requires Memories.Wf(m) && (c == '&' || c == '|' || c == '^')
    ensures var s := Memories.CurrentStack(m);
      var p := s.pointer;
      var nb := if p < 7 then s.cells[p + 1] else s.cells[p - 1];
      var v := CurrentValue(Step(m, c).value.memory);
      v == (if c == '&' then And(s.cells[p], nb)
            else if c == '|' then Or(s.cells[p], nb)
            else Xor(s.cells[p], nb))
  {
  }

  /** Every cell of every stack holds a value in [0, MAX]. */
  predicate AllInDomain(m: Memories.MemoryState)
  {
    forall i, k | 0 <= i < |m.stacks| && 0 <= k < |m.stacks[i].cells| :: InDomain(m.stacks[i].cells[k])
  }

  /** A symbol other than `~` keeps every cell in the domain and cannot
      fail. */
  lemma {:induction false} StepKeepsDomain(m: Memories.MemoryState, c: char)
    requires Memories.Wf(m) && AllInDomain(m) && c != '~'
    ensures Step(m, c).Success? && AllInDomain(Step(m, c).value.memory)
  {
    var s := Memories.CurrentStack(m);
    DomainClosed(Stacks.Current(s), Stacks.Neighbour(s));
  }

  /** `~` is the only way out of the domain: a pass without it, started with
      every cell in [0, MAX], keeps every cell there and never fails. */
  lemma {:induction false} DomainWithoutNot(m: Memories.MemoryState, cs: string)
    requires Memories.Wf(m) && AllInDomain(m) && '~' !in cs
    ensures AllInDomain(Run(m, cs).memory) && Run(m, cs).error == None
    decreases |cs|
  {
    if cs != [] {
      var init := cs[..|cs| - 1];
      assert forall c | c in init :: c in cs;
      assert cs == init + [cs[|cs| - 1]];
      DomainWithoutNot(m, init);
      RunSnoc(m, init, cs[|cs| - 1]);
      StepKeepsDomain(Run(m, init).memory, cs[|cs| - 1]);
    }
  }

  /** The interpreter: source text, compiled tokens and the memory. */
  class Program {
    var source: string
    var tokens: seq<Token>
    var memory: Memories.Memory

    /** The memory is consistent and every stored token is legal. */
    ghost predicate Valid()
      reads this, memory, memory.Repr
    {
      memory.Valid() && this !in memory.Repr &&
      forall i | 0 <= i < |tokens| :: tokens[i].isValid
    }

    constructor()
      ensures Valid() && fresh(memory.Repr)
      ensures source == [] && tokens == [] && memory.Model() == Memories.Initial()
    {
      source := [];
      tokens := [];
      memory := new Memories.Memory();
    }

    /** `write`: the source text is replaced wholesale. */
    method Write(text: string)
      requires Valid()
      modifies this`source
      ensures Valid() && source == text
    {
      source := text;
    }

    /** `load`: compile the source.  An empty source is an error and keeps
        the old tokens; otherwise the tokens become the compiled stream. */
    method Load() returns (error: Option<Error>)
      requires Valid()
      modifies this`tokens
      ensures Valid()
      ensures source == [] ==> error == Some(EmptySource) && tokens == old(tokens)
      ensures source != [] ==> error == None && Symbols(tokens) == Compiled(source)
    {
      if |source| == 0 {
        return Some(EmptySource);
      }
      tokens := [];
      var i := 0;
      while i < |source|
        invariant 0 <= i <= |source|
        invariant Symbols(tokens) == Filter(source[..i]) && STOP !in Symbols(tokens)
        invariant Valid()
      {
        var token := MakeToken(source[i]);
        FilterPrefix(source, i);
        if token.isValid {
          SymbolsSnoc(tokens, token);
          tokens := tokens + [token];
          if token.symbol == STOP {
            CompiledAfterStop(source, i);
            return None;
          }
        }
        i := i + 1;
      }
      assert source[..i] == source;
      UpToStopSplit(Filter(source), []);
      return None;
    }

    /** `execute`: one pass over the tokens against the memory, which keeps
        what the pass did.  Without tokens it reports NotCompiled and does
        nothing; `@` on a value `chr` rejects stops the pass there. */
    method Execute() returns (output: seq<int>, error: Option<Error>)
      requires Valid()
      modifies memory.Repr
      ensures Valid() && fresh(memory.Repr - old(memory.Repr))
      ensures tokens == [] ==>
        error == Some(NotCompiled) && output == [] && memory.Model() == old(memory.Model())
      ensures tokens != [] ==>
        Execution(memory.Model(), output, error) == Run(old(memory.Model()), Symbols(tokens))
    {
      if |tokens| == 0 {
        return [], Some(NotCompiled);
      }
      ghost var start := memory.Model();
      output, error := [], None;
      for i := 0 to |tokens|
        invariant memory.Valid() && fresh(memory.Repr - old(memory.Repr))
        invariant Run(start, Symbols(tokens[..i])) == Execution(memory.Model(), output, None)
      {
        SymbolsAt(tokens, i);
        RunSnoc(start, Symbols(tokens[..i]), tokens[i].symbol);
        var emitted, failed := Dispatch(tokens[i].symbol);
        if failed.Some? {
          RunStopsAtError(start, Symbols(tokens[..i + 1]), Symbols(tokens[i + 1..]));
          return output, failed;
        }
        output := output + emitted;
      }
      assert tokens[..|tokens|] == tokens;
    }

    /** One token's effect, with the stack and cell resolved afresh from the
        cursors. */
    method Dispatch(symbol: char) returns (emitted: seq<int>, error: Option<Error>)
      requires memory.Valid() && this !in memory.Repr
      modifies memory.Repr
      ensures memory.Valid() && fresh(memory.Repr - old(memory.Repr))
      ensures match Step(old(memory.Model()), symbol)
        case Success(o) => memory.Model() == o.memory && emitted == o.emitted && error == None
        case Failure(e) => memory.Model() == old(memory.Model()) && emitted == [] && error == Some(e)
    {
      emitted, error := [], None;
      if IsCellSymbol(symbol) {
        ApplyToCell(symbol);
      } else if IsStackSymbol(symbol) {
        ApplyToStack(symbol);
      } else {
        var stack := memory.stacks[memory.pointer];
        var cell := stack.cells[stack.pointer];
        match symbol
        case '{' => memory.ToPrevious();
        case '}' => memory.ToNext();
        case '[' => memory.JumpStart();
        case ']' => memory.JumpEnd();
        case '@' =>
          var code := cell.Output();
          if code.Some? {
            emitted := [code.value];
          } else {
            error := Some(OutOfRangeCharacter(cell.value));
          }
        case '_' => memory.Add();
        case _ =>
      }
    }

    /** The cell symbols: `+ - * / & | ~ ^` on the cell under both cursors,
        the binary ones with the neighbour's value as second operand. */
    method ApplyToCell(symbol: char)
      requires memory.Valid() && this !in memory.Repr && IsCellSymbol(symbol)
      modifies memory.Repr
      ensures memory.Valid() && memory.Repr == old(memory.Repr)
      ensures Step(old(memory.Model()), symbol).Success?
      ensures memory.Model() == Step(old(memory.Model()), symbol).value.memory
    {
      var sp := memory.pointer;
      var stack := memory.stacks[sp];
      var cp := stack.pointer;
      var cell := stack.cells[cp];
      ghost var before := memory.Model();
      var value := if cp < 7 then stack.cells[cp + 1].value else stack.cells[cp - 1].value;
      assert value == Stacks.Neighbour(before.stacks[sp]);
      Operate(cell, symbol, value);
      assert cell.value == CellEffect(symbol, old(cell.value), value);
      assert forall k | 0 <= k < Stacks.LIMIT && k != cp :: stack.cells[k] != cell;
      assert stack.Model() == Stacks.WithCurrent(before.stacks[sp], cell.value);
      Memories.CurrentStackChanged(memory);
    }

    /** Dispatches a cell symbol to the cell's own operation. */
    static method Operate(cell: Cell, symbol: char, value: int)
      requires IsCellSymbol(symbol)
      modifies cell
      ensures cell.value == CellEffect(symbol, old(cell.value), value)
    {
      match symbol
      case '+' => cell.Increment();
      case '-' => cell.Decrement();
      case '*' => cell.Double();
      case '/' => cell.Half();
      case '&' => cell.BitwiseAnd(value);
      case '|' => cell.BitwiseOr(value);
      case '~' => cell.BitwiseNot();
      case '^' => cell.BitwiseXor(value);
    }

    /** The stack symbols: `< > ( ) !` on the current stack. */
    method ApplyToStack(symbol: char)
      requires memory.Valid() && this !in memory.Repr && IsStackSymbol(symbol)
      modifies memory.Repr
      ensures memory.Valid() && memory.Repr == old(memory.Repr)
      ensures Step(old(memory.Model()), symbol).Success?
      ensures memory.Model() == Step(old(memory.Model()), symbol).value.memory
    {
      var stack := memory.stacks[memory.pointer];
      assert memory !in stack.Repr;
      match symbol {
        case '<' => stack.ToPrevious();
        case '>' => stack.ToNext();
        case '(' => stack.JumpStart();
        case ')' => stack.JumpEnd();
        case '!' => stack.Reset();
      }
      Memories.CurrentStackChanged(memory);
    }

    /** `extract`: the compiled symbols in order, or NotCompiled without
        tokens. */
    method Extract() returns (r: Result<string, Error>)
      ensures tokens == [] ==> r == Failure(NotCompiled)
      ensures tokens != [] ==>
        r.Success? && |r.value| == |tokens| &&
        forall i | 0 <= i < |tokens| :: r.value[i] == tokens[i].symbol
    {
      if |tokens| == 0 {
        return Failure(NotCompiled);
      }
      var text := "";
      for i := 0 to |tokens|
        invariant |text| == i
        invariant forall j | 0 <= j < i :: text[j] == tokens[j].symbol
      {
        text := text + [tokens[i].symbol];
      }
      return Success(text);
    }

    /** `clear`: empty source, no tokens, and a newly built memory. */
    method Clear()
      modifies this
      ensures Valid() && fresh(memory.Repr)
      ensures source == [] && tokens == [] && memory.Model() == Memories.Initial()
    {
      source := [];
      tokens := [];
      memory := new Memories.Memory();
    }
  }

  /** When the legal characters up to position i end in the first STOP,
      they are the whole compiled stream. */
  lemma {:induction false} CompiledAfterStop(s: string, i: int)
    requires 0 <= i < |s| && s[i] == STOP
    requires STOP !in Filter(s[..i])
    ensures Compiled(s) == Filter(s[..i + 1])
  {
    assert s[..i + 1] == s[..i] + [s[i]];
    assert s == s[..i + 1] + s[i + 1..];
    FilterAppend(s[..i + 1], s[i + 1..]);
    UpToStopSplit(Filter(s[..i]), Filter(s[i + 1..]));
  }
}

=== FILE: scenarios.dfy ===
/**
 * Concrete programs and what they do, and a client that drives a Program
 * through compile, run and clear.
 */
module Scenarios {
  import opened Wrappers
  import opened Bits
  import opened Cells
  import opened Tokens
  import opened Programs
  import Memories

  /** n copies of c. */
  function Repeat(c: char, n: nat): (s: string)
    ensures |s| == n && forall i | 0 <= i < n :: s[i] == c
  {
    if n == 0 then [] else Repeat(c, n - 1) + [c]
  }

  /** A unary cell symbol sets the current cell to its effect, leaves the
      rest of the memory alone, prints nothing and cannot fail. */
  lemma {:induction false} ContinueUnary(e: Execution, c: char)
    requires Memories.Wf(e.memory) && e.error == None
    requires c == '+' || c == '-' || c == '*' || c == '/' || c == '~'
    ensures var r := Continue(e, c);
      r.error == None && r.output == e.output &&
      r.memory == WithCurrentValue(e.memory, CellEffect(c, CurrentValue(e.memory), 0)) &&
      CurrentValue(r.memory) == CellEffect(c, CurrentValue(e.memory), 0)
  {
  }

  /** `@` prints the current value, or fails on a value `chr` rejects. */
  lemma {:induction false} ContinueEmit(e: Execution)
    requires Memories.Wf(e.memory) && e.error == None
    ensures var r := Continue(e, '@');
      var v := CurrentValue(e.memory);
      r.memory == e.memory &&
      (IsCodePoint(v) ==> r.output == e.output + [v] && r.error == None) &&
      (!IsCodePoint(v) ==> r.output == e.output && r.error == Some(OutOfRangeCharacter(v)))
  {
  }

  /** n doublings of -2^j give -2^(j + n): past `~` nothing stops `*`. */
  lemma {:induction false} Doublings(e: Execution, j: nat, n: nat)
    requires Memories.Wf(e.memory) && e.error == None && CurrentValue(e.memory) == -(Pow2(j) as int)
    ensures var r := Resume(e, Repeat('*', n));
      r.error == None && r.output == e.output && CurrentValue(r.memory) == -(Pow2(j + n) as int)
    decreases n
  {
    if n > 0 {
      Doublings(e, j, n - 1);
      var r := Resume(e, Repeat('*', n - 1));
      assert Repeat('*', n)[..n - 1] == Repeat('*', n - 1);
      ContinueUnary(r, '*');
      assert Pow2(j + n) == 2 * Pow2(j + n - 1);
    }
  }

  /** n `_` symbols grow the memory as n calls of `add` do. */
  lemma {:induction false} Additions(e: Execution, n: nat)
    requires Memories.Wf(e.memory) && e.error == None
    ensures var r := Resume(e, Repeat('_', n));
      r.error == None && r.output == e.output && r.memory == Memories.AddedTimes(e.memory, n)
    decreases n
  {
    if n > 0 {
      Additions(e, n - 1);
      assert Repeat('_', n)[..n - 1] == Repeat('_', n - 1);
      AddedTimesSnoc(e.memory, n - 1);
    }
  }

  /** `add` n + 1 times is `add` n times, then once more. */
  lemma {:induction false} AddedTimesSnoc(m: Memories.MemoryState, n: nat)
    ensures Memories.AddedTimes(m, n + 1) == Memories.Added(Memories.AddedTimes(m, n))
    decreases n
  {
    if n > 0 {
      AddedTimesSnoc(Memories.Added(m), n - 1);
    }
  }

  /** n increments from a new memory count up to n, stopping at MAX, and
      print nothing. */
  lemma {:induction false} Increments(n: nat)
    ensures var e := Run(Memories.Initial(), Repeat('+', n));
      e.error == None && e.output == [] &&
      CurrentValue(e.memory) == if n <= MAX then n else MAX
    decreases n
  {
    if n > 0 {
      Increments(n - 1);
      var m := Memories.Initial();
      var before := Repeat('+', n - 1);
      assert Repeat('+', n) == before + ['+'];
      RunSnoc(m, before, '+');
      ContinueUnary(Run(m, before), '+');
    }
  }

  /** `+++@` compiles to itself and prints code point 3. */
  lemma ThreeIncrements()
    ensures Compiled("+++@") == "+++@"
    ensures Run(Memories.Initial(), "+++@").output == [3]
    ensures Run(Memories.Initial(), "+++@").error == None
  {
    var text := "+++@";
    assert forall i | 0 <= i < |text| :: IsLegal(text[i]);
    CompiledPlain(text);
    var m := Memories.Initial();
    var pluses := Repeat('+', 3);
    assert text == pluses + ['@'];
    Increments(3);
    RunSnoc(m, pluses, '@');
    ContinueEmit(Run(m, pluses));
  }

  /** Compiling `++.++@` keeps `++.` only, and that prints nothing. */
  lemma StopTruncates()
    ensures Compiled("++.++@") == "++."
    ensures Run(Memories.Initial(), "++.").output == []
    ensures Run(Memories.Initial(), "++.").error == None
  {
    var s1, s2, s3, text := "+", "++", "++.", "++.++@";
    assert s2 == s1 + ['+'] && s3 == s2 + ['.'] && text == s2 + [STOP] + "++@";
    assert Compiled(text) == s3 by {
      assert forall i | 0 <= i < |text| :: IsLegal(text[i]);
      FilterLegal(text);
      UpToStopSplit(s2, "++@");
    }
    var m := Memories.Initial();
    assert Run(m, s3).output == [] && Run(m, s3).error == None by {
      assert [] + ['+'] == s1;
      RunSnoc(m, [], '+');
      RunSnoc(m, s1, '+');
      RunSnoc(m, s2, '.');
    }
  }

  /** Compiling `+?+@` drops the illegal `?`. */
  lemma IllegalDropped()
    ensures Compiled("+?+@") == "++@"
  {
    var a, b, c, d := "+", "+?", "+?+", "+?+@";
    assert b == a + ['?'] && c == b + ['+'] && d == c + ['@'];
    FilterSnoc([], '+');
    assert [] + ['+'] == a;
    FilterSnoc(a, '?');
    FilterSnoc(b, '+');
    FilterSnoc(c, '@');
    assert Filter(d) == ['+', '+', '@'];
    UpToStopShape("++@");
  }

  /** `++@` prints code point 2. */
  lemma TwoIncrements()
    ensures Run(Memories.Initial(), "++@").output == [2]
    ensures Run(Memories.Initial(), "++@").error == None
  {
    var m := Memories.Initial();
    var pluses := Repeat('+', 2);
    assert "++@" == pluses + ['@'];
    Increments(2);
    RunSnoc(m, pluses, '@');
    ContinueEmit(Run(m, pluses));
  }

  /** `~@` fails: `~` turns 0 into -1, which `chr` rejects. */
  lemma NotThenEmit()
    ensures Run(Memories.Initial(), "~@") ==
      Execution(Run(Memories.Initial(), "~").memory, [], Some(OutOfRangeCharacter(-1)))
  {
    var m := Memories.Initial();
    assert "" + ['~'] == "~" && "~" + ['@'] == "~@";
    RunSnoc(m, "", '~');
    RunSnoc(m, "~", '@');
    ContinueUnary(Run(m, ""), '~');
    ContinueEmit(Run(m, "~"));
  }

  /** `~/@` prints code point 1: `half` of a negative value is 1. */
  lemma HalfOfNegative()
    ensures Run(Memories.Initial(), "~/@").output == [1]
    ensures Run(Memories.Initial(), "~/@").error == None
  {
    var m := Memories.Initial();
    assert "" + ['~'] == "~" && "~" + ['/'] == "~/" && "~/" + ['@'] == "~/@";
    RunSnoc(m, "", '~');
    RunSnoc(m, "~", '/');
    RunSnoc(m, "~/", '@');
    ContinueUnary(Run(m, ""), '~');
    ContinueUnary(Run(m, "~"), '/');
    ContinueEmit(Run(m, "~/"));
  }

  /** `~` then k doublings leaves -2^k in the first cell, with nothing printed. */
  lemma {:induction false} NegativePower(k: nat)
    ensures var e := Run(Memories.Initial(), "~" + Repeat('*', k));
      Memories.Wf(e.memory) && e.error == None && e.output == [] &&
      CurrentValue(e.memory) == -(Pow2(k) as int)
  {
    var m := Memories.Initial();
    var start := Execution(m, [], None);
    var stars := Repeat('*', k);
    var negated := Run(m, "~");
    assert negated.error == None && negated.output == [] &&
      CurrentValue(negated.memory) == -(Pow2(0) as int) by {
      assert "" + ['~'] == "~";
      RunSnoc(m, "", '~');
      ContinueUnary(start, '~');
    }
    assert Run(m, "~" + stars) == Resume(negated, stars) by {
      ResumeAppend(start, "~", stars);
    }
    Doublings(negated, 0, k);
  }

  /** `~`, k doublings, `~` and `@` print 2^k - 1 when `chr` accepts it:
      the cell leaves [0, MAX] upwards too, so `@` can print code points
      above MAX (255 for k = 8) and fails on large positive values
      (2^21 - 1 for k = 21), not only on negative ones. */
  lemma {:induction false} NotDoubleNot(k: nat)
    ensures var e := Run(Memories.Initial(), "~" + Repeat('*', k) + "~@");
      var v := Pow2(k) - 1;
      (IsCodePoint(v) ==> e.output == [v] && e.error == None) &&
      (!IsCodePoint(v) ==> e.output == [] && e.error == Some(OutOfRangeCharacter(v)))
  {
    var m := Memories.Initial();
    var prefix := "~" + Repeat('*', k);
    assert prefix + "~@" == (prefix + ['~']) + ['@'];
    RunSnoc(m, prefix + ['~'], '@');
    RunSnoc(m, prefix, '~');
    NegativePower(k);
    ContinueUnary(Run(m, prefix), '~');
    ContinueEmit(Run(m, prefix + ['~']));
  }

  /** The concrete instances: 255 is printed, 2^21 - 1 is rejected. */
  lemma BeyondTheDomain()
    ensures Run(Memories.Initial(), "~" + Repeat('*', 8) + "~@").output == [255]
    ensures Run(Memories.Initial(), "~" + Repeat('*', 21) + "~@").error ==
      Some(OutOfRangeCharacter(2097151))
  {
    assert Run(Memories.Initial(), "~" + Repeat('*', 8) + "~@").output == [255] by {
      NotDoubleNot(8);
      assert Pow2(8) == 256;
    }
    assert Pow2(21) == 2097152;
    NotDoubleNot(21);
  }

  /** Twenty `_` symbols leave 15 stacks: growth stops below LIMIT. */
  lemma GrowTwenty()
    ensures |Run(Memories.Initial(), Repeat('_', 20)).memory.stacks| == Memories.LIMIT - 1
  {
    Additions(Execution(Memories.Initial(), [], None), 20);
    Memories.GrowthCeiling(Memories.Initial(), 20);
  }

  /** A second pass over `+@` on the memory the first pass left prints 2
      where the first printed 1: `execute` keeps its memory. */
  lemma SecondPassSeesFirst()
    ensures Run(Memories.Initial(), "+@").output == [1]
    ensures Run(Run(Memories.Initial(), "+@").memory, "+@").output == [2]
  {
    var m := Memories.Initial();
    assert "" + ['+'] == "+" && "+" + ['@'] == "+@";
    RunSnoc(m, "", '+');
    RunSnoc(m, "+", '@');
    ContinueUnary(Run(m, ""), '+');
    ContinueEmit(Run(m, "+"));
    var m' := Run(m, "+@").memory;
    RunSnoc(m', "", '+');
    RunSnoc(m', "+", '@');
    ContinueUnary(Run(m', ""), '+');
    ContinueEmit(Run(m', "+"));
  }

  /** `~@` run a second time on the memory the failed first pass left
      prints code point 0: the first `~` turned 0 into -1, and the second
      turns -1 back into 0. */
  lemma RerunAfterFailure()
    ensures Run(Run(Memories.Initial(), "~@").memory, "~@").output == [0]
    ensures Run(Run(Memories.Initial(), "~@").memory, "~@").error == None
  {
    var m := Memories.Initial();
    NotThenEmit();
    assert "" + ['~'] == "~" && "~" + ['@'] == "~@";
    RunSnoc(m, "", '~');
    ContinueUnary(Run(m, ""), '~');
    var m' := Run(m, "~@").memory;
    assert CurrentValue(m') == -1;
    RunSnoc(m', "", '~');
    RunSnoc(m', "~", '@');
    ContinueUnary(Run(m', ""), '~');
    ContinueEmit(Run(m', "~"));
  }

  /** The editor's compile command: `write` the text, then `load` it.  The
      memory is not touched. */
  method CompileCommand(program: Program, text: string) returns (error: Option<Error>)
    requires program.Valid()
    modifies program
    ensures program.Valid() && program.source == text
    ensures program.memory == old(program.memory) && program.memory.Repr == old(program.memory.Repr)
    ensures program.memory.Model() == old(program.memory.Model())
    ensures text == [] ==> error == Some(EmptySource) && program.tokens == old(program.tokens)
    ensures text != [] ==> error == None && Symbols(program.tokens) == Compiled(text)
  {
    program.Write(text);
    error := program.Load();
  }

  /** The editor's run command: `execute`, then `clear`.  When `chr` raises
      inside `execute`, the exception skips `clear`: the program keeps its
      tokens and the memory the failed pass left. */
  method RunCommand(program: Program) returns (output: seq<int>, error: Option<Error>)
    requires program.Valid()
    modifies program, program.memory.Repr
    ensures program.Valid() && fresh(program.memory.Repr - old(program.memory.Repr))
    ensures old(program.tokens) == [] ==> output == [] && error == Some(NotCompiled)
    ensures old(program.tokens) != [] ==>
      output == Run(old(program.memory.Model()), Symbols(old(program.tokens))).output &&
      error == Run(old(program.memory.Model()), Symbols(old(program.tokens))).error
    ensures error.Some? && error.value.OutOfRangeCharacter? ==>
      program.source == old(program.source) && program.tokens == old(program.tokens) &&
      program.memory.Model() == Run(old(program.memory.Model()), Symbols(old(program.tokens))).memory
    ensures !(error.Some? && error.value.OutOfRangeCharacter?) ==>
      program.source == [] && program.tokens == [] && program.memory.Model() == Memories.Initial()
  {
    output, error := program.Execute();
    if !(error.Some? && error.value.OutOfRangeCharacter?) {
      program.Clear();
    }
  }

  /** Compiling `~@` and giving the run command twice: the first pass fails
      on -1, so `clear` is skipped, and the second pass runs the same tokens
      on the memory the first left, printing code point 0. */
  method RunAfterFailure() returns (first: Option<Error>, second: seq<int>)
    ensures first == Some(OutOfRangeCharacter(-1))
    ensures second == [0]
  {
    var text := "~@";
    assert Compiled(text) == text by {
      assert forall i | 0 <= i < |text| :: IsLegal(text[i]);
      CompiledPlain(text);
    }
    ghost var m := Memories.Initial();
    assert Run(m, text).error == Some(OutOfRangeCharacter(-1)) by { NotThenEmit(); }
    assert Run(Run(m, text).memory, text).output == [0] by { RerunAfterFailure(); }
    var program := new Program();
    var loaded := CompileCommand(program, text);
    var output;
    output, first := RunCommand(program);
    second, loaded := RunCommand(program);
  }

  /** Compile and run text on a newly built program, as the editor's compile
      and run commands do in turn; a failed compile skips the run. */
  method CompileAndRun(text: string) returns (output: seq<int>, error: Option<Error>)
    ensures text == [] ==> output == [] && error == Some(EmptySource)
    ensures text != [] && Compiled(text) == [] ==> output == [] && error == Some(NotCompiled)
    ensures text != [] && Compiled(text) != [] ==>
      output == Run(Memories.Initial(), Compiled(text)).output &&
      error == Run(Memories.Initial(), Compiled(text)).error
  {
    var program := new Program();
    error := CompileCommand(program, text);
    if error.Some? {
      return [], error;
    }
    output, error := RunCommand(program);
  }

  /** Write, compile and run text on a program that holds no tokens and a
      new memory; a failed compile skips the run. */
  method CompileAndRunOn(program: Program, text: string) returns (output: seq<int>, error: Option<Error>)
    requires program.Valid() && program.tokens == [] && program.memory.Model() == Memories.Initial()
    modifies program, program.memory.Repr
    ensures program.Valid() && program.source == text
    ensures program.memory == old(program.memory) && fresh(program.memory.Repr - old(program.memory.Repr))
    ensures text == [] ==>
      output == [] && error == Some(EmptySource) &&
      program.tokens == [] && program.memory.Model() == Memories.Initial()
    ensures text != [] ==> Symbols(program.tokens) == Compiled(text)
    ensures text != [] && Compiled(text) == [] ==>
      output == [] && error == Some(NotCompiled) && program.memory.Model() == Memories.Initial()
    ensures text != [] && Compiled(text) != [] ==>
      Execution(program.memory.Model(), output, error) == Run(Memories.Initial(), Compiled(text))
  {
    program.Write(text);
    error := program.Load();
    if error.Some? {
      return [], error;
    }
    output, error := program.Execute();
  }

  /** The same source compiled and run twice prints the same both times
      when `clear` runs in between (the run command skips it after a `chr`
      failure), and `clear` leaves a program that must be compiled again. */
  method RunTwiceWithClear(text: string) returns (first: seq<int>, second: seq<int>, after: Option<Error>)
    ensures first == second
    ensures after == Some(NotCompiled)
  {
    var program := new Program();
    var failed;
    first, failed := CompileAndRunOn(program, text);
    program.Clear();
    var extracted := program.Extract();
    after := if extracted.Failure? then Some(extracted.error) else None;
    second, failed := CompileAndRunOn(program, text);
  }
}

=== FILE: stacks.dfy ===
/**
 * A Stack is a row of LIMIT cells with a cursor.  Despite its name it is
 * not last-in-first-out: the cursor moves one cell at a time or jumps to
 * either end, always clamped to [0, LIMIT - 1].
 */
module Stacks {
  import opened Cells

  /** The number of cells in every stack. */
  const LIMIT: int := 8

  /** The observable state of a stack: the cell values and the cursor. */
  datatype StackState = StackState(cells: seq<int>, pointer: int)

  /** A stack has exactly LIMIT cells and its cursor is on one of them. */
  predicate Wf(s: StackState)
  {
    |s.cells| == LIMIT && 0 <= s.pointer < LIMIT
  }

  /** A newly built stack: all cells 0, cursor on the first. */
  function Fresh(): (s: StackState)
    ensures Wf(s) && s.pointer == 0
    ensures forall k | 0 <= k < LIMIT :: s.cells[k] == 0
  {
    StackState(seq(LIMIT, _ => 0), 0)
  }

  /** `to_next`: one cell to the right, a no-op on the last cell. */
  function MovedNext(s: StackState): (r: StackState)
    ensures r.cells == s.cells
    ensures Wf(s) ==> Wf(r)
    ensures r.pointer == s.pointer <==> s.pointer >= LIMIT - 1
    ensures r.pointer == s.pointer || r.pointer == s.pointer + 1
  {
    s.(pointer := s.pointer + if s.pointer < LIMIT - 1 then 1 else 0)
  }

  /** `to_previous`: one cell to the left, a no-op on the first cell. */
  function MovedPrevious(s: StackState): (r: StackState)
    ensures r.cells == s.cells
    ensures Wf(s) ==> Wf(r)
    ensures r.pointer == s.pointer <==> s.pointer <= 0
    ensures r.pointer == s.pointer || r.pointer == s.pointer - 1
  {
    s.(pointer := s.pointer - if s.pointer > 0 then 1 else 0)
  }

  /** `jump_start`: the cursor goes to the first cell. */
  function JumpedStart(s: StackState): (r: StackState)
    ensures r.cells == s.cells
    ensures Wf(s) ==> Wf(r)
    ensures Wf(s) ==> MovedPrevious(r) == r
  {
    s.(pointer := 0)
  }

  /** `jump_end`: the cursor goes to the last cell. */
  function JumpedEnd(s: StackState): (r: StackState)
    ensures r.cells == s.cells
    ensures Wf(s) ==> Wf(r)
    ensures Wf(s) ==> MovedNext(r) == r
  {
    s.(pointer := LIMIT - 1)
  }

  /** `reset`: every cell back to 0 and the cursor to the first cell; on a
      well-formed stack this is a newly built stack again. */
  function Cleared(s: StackState): (r: StackState)
    ensures |r.cells| == |s.cells| && r.pointer == 0
    ensures forall k | 0 <= k < |r.cells| :: r.cells[k] == 0
    ensures Wf(s) ==> r == Fresh()
  {
    s.(cells := seq(|s.cells|, _ => 0), pointer := 0)
  }

  /** The index of the second operand of `&`, `|` and `^`: the cell to the
      right of the cursor, or the one to its left on the last cell. */
  function NeighbourIndex(p: int): (n: int)
    ensures 0 <= p < LIMIT ==> 0 <= n < LIMIT && n != p
    ensures n == p + 1 <==> p < LIMIT - 1
    ensures p == LIMIT - 1 ==> n == p - 1
  {
    if p < LIMIT - 1 then p + 1 else p - 1
  }

  /** The value of the cell under the cursor. */
  function Current(s: StackState): int
    requires Wf(s)
  {
    s.cells[s.pointer]
  }

  /** The value of the cursor's neighbour. */
  function Neighbour(s: StackState): int
    requires Wf(s)
  {
    s.cells[NeighbourIndex(s.pointer)]
  }

  /** The stack with the cell under the cursor set to v. */
  function WithCurrent(s: StackState, v: int): (r: StackState)
    requires Wf(s)
    ensures Wf(r) && r.pointer == s.pointer && Current(r) == v
    ensures forall k | 0 <= k < LIMIT && k != s.pointer :: r.cells[k] == s.cells[k]
  {
    s.(cells := s.cells[s.pointer := v])
  }

  /** No sequence of the four cursor moves can take the cursor out of
      [0, LIMIT - 1]; `to_next` on the last cell and `to_previous` on the
      first change nothing. */
  lemma {:induction false} CursorInRange(s: StackState, moves: seq<char>)
    requires Wf(s)
    ensures Wf(Moves(s, moves))
    ensures Moves(s, moves).cells == s.cells
    decreases |moves|
  {
    if moves != [] {
      CursorInRange(Move(s, moves[0]), moves[1..]);
    }
  }

  /** One cursor move, by its symbol in the language: `>` `<` `(` `)`; any
      other character leaves the stack alone.  A move keeps the cells and
      a well-formed stack well-formed. */
  function Move(s: StackState, m: char): (r: StackState)
    ensures r.cells == s.cells
    ensures Wf(s) ==> Wf(r)
    ensures m != '>' && m != '<' && m != '(' && m != ')' ==> r == s
  {
    match m
    case '>' => MovedNext(s)
    case '<' => MovedPrevious(s)
    case '(' => JumpedStart(s)
    case ')' => JumpedEnd(s)
    case _ => s
  }

  /** A run of cursor moves, left to right. */
  function Moves(s: StackState, moves: seq<char>): StackState
    decreases |moves|
  {
    if moves == [] then s else Moves(Move(s, moves[0]), moves[1..])
  }

  /** An 8-cell register file with a cursor. */
  class Stack {
    const cells: seq<Cell>
    var pointer: int
    ghost const Repr: set<object>

    ghost predicate Valid()
      reads this
    {
      this in Repr &&
      |cells| == LIMIT && 0 <= pointer < LIMIT &&
      (forall k | 0 <= k < LIMIT :: cells[k] in Repr) &&
      (forall j, k | 0 <= j < k < LIMIT :: cells[j] != cells[k])
    }

    ghost function Model(): StackState
      reads this, cells
    {
      StackState(seq(|cells|, k requires 0 <= k < |cells| reads cells => cells[k].value), pointer)
    }

    constructor()
      ensures Valid() && fresh(Repr)
      ensures Model() == Fresh()
    {
      var made: seq<Cell> := [];
      for count := 0 to LIMIT
        invariant |made| == count
        invariant forall k | 0 <= k < count :: fresh(made[k]) && made[k].value == 0
        invariant forall j, k | 0 <= j < k < count :: made[j] != made[k]
      {
        var cell := new Cell();
        made := made + [cell];
      }
      cells := made;
      pointer := 0;
      Repr := {this} + set k | 0 <= k < LIMIT :: made[k];
    }

    method ToNext()
      requires Valid()
      modifies this
      ensures Valid() && Model() == MovedNext(old(Model()))
    {
      pointer := pointer + if pointer < LIMIT - 1 then 1 else 0;
    }

    method ToPrevious()
      requires Valid()
      modifies this
      ensures Valid() && Model() == MovedPrevious(old(Model()))
    {
      pointer := pointer - if pointer > 0 then 1 else 0;
    }

    method JumpStart()
      requires Valid()
      modifies this
      ensures Valid() && Model() == JumpedStart(old(Model()))
    {
      pointer := 0;
    }

    method JumpEnd()
      requires Valid()
      modifies this
      ensures Valid() && Model() == JumpedEnd(old(Model()))
    {
      pointer := LIMIT - 1;
    }

    method Reset()
      requires Valid()
      modifies Repr
      ensures Valid() && Model() == Cleared(old(Model()))
    {
      for i := 0 to LIMIT
        invariant Valid()
        invariant forall k | 0 <= k < i :: cells[k].value == 0
      {
        cells[i].Reset();
      }
      pointer := 0;
    }
  }
}

=== FILE: tokens.dfy ===
/**
 * Tokens and the tokenizer's specification.  A token is a character paired
 * with whether it is one of the twenty legal symbols; compiling keeps the
 * legal characters of the source in order and stops right after the first
 * `.`, which it keeps.
 */
module Tokens {

  /** The legal symbols of the language. */
  const LEGALS: string := "+-*/&|~^<>(){}[]_!@."

  /** The terminator, the last token a compilation keeps. */
  const STOP: char := '.'

  /** Membership in LEGALS, spelled out symbol by symbol. */
  predicate IsLegal(c: char)
  {
    c == '+' || c == '-' || c == '*' || c == '/' || c == '&' ||
    c == '|' || c == '~' || c == '^' || c == '<' || c == '>' ||
    c == '(' || c == ')' || c == '{' || c == '}' || c == '[' ||
    c == ']' || c == '_' || c == '!' || c == '@' || c == '.'
  }

  /** A symbol and whether it is legal. */
  datatype Token = Token(symbol: char, isValid: bool)

  /** Building a token classifies its symbol once. */
  function MakeToken(c: char): (t: Token)
    ensures t.symbol == c
    ensures t.isValid <==> c in LEGALS
    ensures t.isValid <==> IsLegal(c)
  {
    Token(c, c in LEGALS)
  }

  /** The symbols of a token list, in order. */
  function Symbols(ts: seq<Token>): (s: string)
    ensures |s| == |ts|
    ensures forall i | 0 <= i < |ts| :: s[i] == ts[i].symbol
  {
    seq(|ts|, i requires 0 <= i < |ts| => ts[i].symbol)
  }

  /** The legal characters of s, in their original order. */
  function Filter(s: string): (r: string)
    ensures |r| <= |s|
    ensures forall i | 0 <= i < |r| :: IsLegal(r[i])
    decreases |s|
  {
    if s == [] then []
    else Filter(s[..|s| - 1]) + (if IsLegal(s[|s| - 1]) then [s[|s| - 1]] else [])
  }

  /** t cut just after its first STOP, or all of t if it has none: a prefix
      of t in which STOP can only come last. */
  function UpToStop(t: string): (r: string)
    ensures r <= t
    ensures forall i | 0 <= i < |r| - 1 :: r[i] != STOP
    decreases |t|
  {
    if t == [] then []
    else if t[0] == STOP then [STOP]
    else [t[0]] + UpToStop(t[1..])
  }

  /** What compiling s produces (for non-empty s): a prefix of its legal
      characters, so legal symbols only, in source order. */
  function Compiled(s: string): (r: string)
    ensures r <= Filter(s)
    ensures forall i | 0 <= i < |r| :: IsLegal(r[i])
  {
    UpToStop(Filter(s))
  }

  /** Appending a token appends its symbol. */
  lemma {:induction false} SymbolsSnoc(ts: seq<Token>, t: Token)
    ensures Symbols(ts + [t]) == Symbols(ts) + [t.symbol]
  {
    var r := Symbols(ts + [t]);
    assert forall k | 0 <= k < |r| :: r[k] == (Symbols(ts) + [t.symbol])[k];
  }

  /** The symbols up to and including position i are those before it
      followed by its own, and those after it complete the stream. */
  lemma {:induction false} SymbolsAt(ts: seq<Token>, i: int)
    requires 0 <= i < |ts|
    ensures Symbols(ts[..i + 1]) == Symbols(ts[..i]) + [ts[i].symbol]
    ensures Symbols(ts) == Symbols(ts[..i + 1]) + Symbols(ts[i + 1..])
  {
    var whole, before, upTo, after := Symbols(ts), Symbols(ts[..i]), Symbols(ts[..i + 1]), Symbols(ts[i + 1..]);
    assert forall k | 0 <= k < |upTo| :: upTo[k] == (before + [ts[i].symbol])[k];
    assert forall k | 0 <= k < |whole| :: whole[k] == (upTo + after)[k];
  }

  /** Filtering one more character appends it exactly when it is legal. */
  lemma {:induction false} FilterSnoc(s: string, c: char)
    ensures Filter(s + [c]) == Filter(s) + if IsLegal(c) then [c] else []
  {
    assert (s + [c])[..|s|] == s;
  }

  /** Scanning the character at position i extends the filtered prefix by
      it exactly when it is legal. */
  lemma {:induction false} FilterPrefix(s: string, i: int)
    requires 0 <= i < |s|
    ensures Filter(s[..i + 1]) == Filter(s[..i]) + if IsLegal(s[i]) then [s[i]] else []
  {
    assert s[..i + 1] == s[..i] + [s[i]];
    FilterSnoc(s[..i], s[i]);
  }

  /** Filtering distributes over concatenation. */
  lemma {:induction false} FilterAppend(a: string, b: string)
    ensures Filter(a + b) == Filter(a) + Filter(b)
    decreases |b|
  {
    if b == [] {
      assert a + b == a;
    } else {
      var b' := b[..|b| - 1];
      assert (a + b)[..|a + b| - 1] == a + b';
      FilterAppend(a, b');
    }
  }

  /** Cutting at the first STOP ignores everything after it, and changes
      nothing in a text without STOP. */
  lemma {:induction false} UpToStopSplit(x: string, y: string)
    requires STOP !in x
    ensures UpToStop(x + [STOP] + y) == x + [STOP]
    ensures UpToStop(x) == x
    decreases |x|
  {
    if x != [] {
      assert (x + [STOP] + y)[1..] == x[1..] + [STOP] + y;
      UpToStopSplit(x[1..], y);
    }
  }

  /** The cut text is a prefix of t; STOP occurs in it at most once and then
      last; it ends in STOP whenever t contains one, and is all of t when t
      does not. */
  lemma {:induction false} UpToStopShape(t: string)
    ensures var r := UpToStop(t);
      r <= t &&
      (forall i | 0 <= i < |r| - 1 :: r[i] != STOP) &&
      (STOP in t ==> |r| > 0 && r[|r| - 1] == STOP) &&
      (STOP !in t ==> r == t)
    decreases |t|
  {
    if t != [] && t[0] != STOP {
      UpToStopShape(t[1..]);
      assert t == [t[0]] + t[1..];
    }
  }

  /** The compiled stream is a prefix of the source's legal characters, so
      it holds only legal symbols in their source order; it contains STOP
      at most once and then as its last symbol; it ends in STOP whenever the
      source has a legal STOP, and is all the legal characters otherwise. */
  lemma {:induction false} CompiledShape(s: string)
    ensures var r := Compiled(s);
      r <= Filter(s) &&
      (forall i | 0 <= i < |r| :: IsLegal(r[i])) &&
      (forall i | 0 <= i < |r| - 1 :: r[i] != STOP) &&
      (STOP in Filter(s) ==> |r| > 0 && r[|r| - 1] == STOP) &&
      (STOP !in Filter(s) ==> r == Filter(s))
  {
    UpToStopShape(Filter(s));
  }

  /** Filtering a text of legal characters keeps all of it. */
  lemma {:induction false} FilterLegal(t: string)
    requires forall i | 0 <= i < |t| :: IsLegal(t[i])
    ensures Filter(t) == t
    decreases |t|
  {
    if t != [] {
      var t' := t[..|t| - 1];
      assert forall i | 0 <= i < |t'| :: t'[i] == t[i];
      FilterLegal(t');
      assert IsLegal(t[|t| - 1]);
      assert Filter(t) == t' + [t[|t| - 1]];
      assert t' + [t[|t| - 1]] == t;
    }
  }

  /** A text of legal symbols without STOP compiles to itself. */
  lemma {:induction false} CompiledPlain(s: string)
    requires forall i | 0 <= i < |s| :: IsLegal(s[i])
    requires STOP !in s
    ensures Compiled(s) == s
  {
    FilterLegal(s);
    UpToStopShape(s);
  }

  /** Compiling the compiled symbols again gives them back unchanged, so
      the symbols a program extracts compile to the same stream. */
  lemma {:induction false} CompileTwice(s: string)
    ensures Compiled(Compiled(s)) == Compiled(s)
  {
    var r := Compiled(s);
    CompiledShape(s);
    FilterLegal(r);
    UpToStopShape(r);
    if r != [] && r[|r| - 1] == STOP {
      var x := r[..|r| - 1];
      assert r == x + [STOP] + [];
      UpToStopSplit(x, []);
    }
  }
}

=== FILE: wrappers.dfy ===
/** Option and Result, used for the interpreter's reported errors. */
module Wrappers {

  datatype Option<+T> = None | Some(value: T)

  datatype Result<+R, +E> = Success(value: R) | Failure(error: E)
}
